=== FILE: README.md ===
# gargoyle: watch-tree manager and event disambiguator

A Dafny model of the core of gargoyle, a Node.js library that watches a file
or a directory tree and reports `create`, `modify`, `delete` and `rename`
events. The model covers the two deterministic pieces of `index.js`:

- the event disambiguator `getRealEvent`, which turns a raw `fs.watch`
  notification (`change` or `rename`) into a semantic event from whether the
  path is in the registry (`context.files`) and whether it still exists;
- the recursive attach `watch`, which walks the tree up to `maxDepth`,
  consults the `exclude` predicate, registers a handle for every file and
  directory that has none yet, and propagates `stat`, `readdir` and child
  errors;

together with the callbacks that use them (`watchFile`, `watchDir`, the
polling listeners `watchFileFile` and `watchFileDir`), the option defaults of
`monitor`, and `stop`.

Everything is a value. The filesystem is a map from paths (sequences of
names; `path.join(dir, name)` appends `name`) to nodes: a file, or a directory
with the listing `fs.readdir` would return, `None` when listing fails.
`fs.stat` fails exactly on paths that are not keys. The registry is a map from
path to handle; a handle records which primitive created it (`fs.watch` or
`fs.watchFile`) and whether it watches a file or a directory. Raw
notifications and emitted events are datatypes. Timestamps are the integer
milliseconds of `getTime()`.

Modules:

- `Wrappers` (wrappers.dfy): `Option` and `Result`.
- `Fs` (filesystem.dfy): paths, stat metadata, nodes, and the subtree
  measure that makes the walk terminate.
- `Session` (session.dfy): events, raw kinds, handles, the registry, options
  and their defaults, the monitor context.
- `Disambiguator` (disambiguator.dfy): `getRealEvent` and replays of
  notification sequences on one path.
- `WatchTree` (watch_tree.dfy): `watch`, the fold over directory entries, and
  the reference definition `Reaches` of which paths a walk attaches.
- `Polling` (polling.dfy): the `fs.watchFile` listeners.
- `Gargoyle` (monitor.dfy): `monitor`, delivery of notifications to handles,
  runs of notifications, and `stop`.

The `exclude` option is modelled as a pure function of the path and the node.
The source passes it only the `fs.Stats` of the path; the model's node also
carries the directory listing, so it can express more than the source allows.
In the source, `exclude` is a user callback that may keep state between
calls. `WatchIdempotent` and `WatchFromAnyRegistry` rely on it being pure.

Behaviour kept as the code has it:

- `watchDir` walks a newly created entry from depth 0 with the monitor's
  limit, not from its parent's depth plus one (`DirNotify`,
  `CreatedEntryWalkedFromDepthZero`).
- `watchDir` emits `create` even when that walk failed (`DirNotify`).
- `watchDir` emits `create` for a new entry that `exclude` rejects: the walk
  passes without registering it. Because the entry stays unregistered, every
  later `rename` notification naming it emits `create` again (`DirNotify`).
- `monitor` turns a `maxDepth` of 0 into no limit, because 0 is falsy
  (`ZeroMaxDepthIsUnbounded`).
- A directory that is already registered is still listed and its entries
  walked again; the registry only decides whether a handle is attached
  (`WatchFromAnyRegistry`).
- `watchFileDir` emits one `create` carrying the directory's own path, not one
  per new entry (`DirPoll`).
- A listed entry that can no longer be stat'ed fails the whole walk, and so
  fails `monitor`.
- When `getRealEvent` yields no event name, the callback still calls
  `emit(undefined, path)`. No listener of the four event names receives it,
  so the model emits nothing.

## Model

| member | source | states |
|---|---|---|
| Fs.Child | index.js:44 | the path of an entry extends its directory's path by exactly one component, the entry's name |
| Session.Configure | index.js:154-155 | a falsy type (absent or empty) selects `fs.watch`, any type other than `watch` selects polling; a falsy depth (absent or 0) means no limit, any other depth is kept; `exclude` is passed through |
| Session.WatcherFor | index.js:109-111 | the handle attached to a node has the monitor's strategy, and watches a directory exactly when the node is one |
| Session.ReleaseFor | index.js:178-182 | a handle is released for its own path, by `close()` exactly under `fs.watch` and by `fs.unwatchFile` otherwise |
| Session.Register | index.js:138-142 | registering keeps every existing handle, adds the path, and installs the new handle only when the path had none |
| Disambiguator.RealEvent | index.js:10-32 | each event is produced by exactly these inputs: `create` iff unknown, existing and `rename`; `modify` iff known, existing and `change`; `delete` iff known, absent and `change`; `rename` iff known and `rename`; none iff unknown and not (existing and `rename`). Only `delete` changes the registry: it removes exactly that path and closes its handle |
| Disambiguator.Replay | index.js:16-27 | replaying notifications on one path yields one decision per notification and can at most remove that path from the registry, and only if it is known and absent |
| Disambiguator.ForgottenPathIsSilent | index.js:16-19 | once an absent path is not registered, every further notification on it yields no event and leaves the registry alone |
| Disambiguator.UnlinkYieldsOneDelete | index.js:13-27 | for a registered absent path, `change` followed by any echoes yields `delete` first, then no event for every echo, and the path leaves the registry |
| Disambiguator.UnlinkEchoSuppressed | index.js:13-15 | the unlink pattern `change, rename, rename` on a registered absent path yields exactly `delete, none, none` and removes the path |
| WatchTree.Watch | index.js:90-146 | a walk only adds entries and never replaces a handle; every new entry exists and carries the handle for its node kind; beyond the depth limit it passes with the registry unchanged; a missing path fails with a stat error; an excluded path passes with the registry unchanged; an included path ends up registered; an included file passes with just its own handle added when it had none; a directory whose listing fails reports a readdir error |
| WatchTree.WatchEach | index.js:114-133 | the fold over a directory's entries only adds entries and never replaces a handle, and every new entry carries the handle for its node kind |
| WatchTree.WatchFromAnyRegistry | index.js:107-113 | a walk from any registry reports the same status as a walk from the empty registry and leaves the union of the two, existing handles winning: the registry never steers the walk |
| WatchTree.WatchEachFromAnyRegistry | index.js:124-133 | the same independence from the registry for the fold over a directory's entries |
| WatchTree.WatchIdempotent | index.js:108-113 | walking the same unchanged tree a second time returns exactly the result of the first walk, registry and status |
| WatchTree.ReachedPathShape | index.js:91-105 | a path the walk reaches lies below the start, exists, is not excluded, and its depth is within the limit |
| WatchTree.WatchRegistersReached | index.js:90-146 | a walk registers only already registered or reached paths, and a walk that passes registers every reached path (every path within the depth limit reachable through existing, listed, non-excluded directories and not itself excluded) |
| WatchTree.WatchRegistersOnlyReached | index.js:90-146 | a walk registers nothing but already registered or reached paths, whatever its status |
| WatchTree.WatchRegistersAllReached | index.js:90-146 | a walk that passes registers every reached path |
| WatchTree.WatchEachRegistersOnlyReached | index.js:120-133 | the fold over entries registers nothing but already registered paths or paths reached from some entry |
| WatchTree.WatchEachRegistersAllReached | index.js:120-133 | when the fold over entries passes, every path reached from every entry is registered |
| WatchTree.WatchEachFailsOnFirstFailure | index.js:124-133 | the fold passes iff the walk of every entry passes on its own, and otherwise reports the error of the first failing entry, all earlier entries having passed |
| WatchTree.WatchDirectoryPropagatesFailure | index.js:114-133 | a reached directory whose listing succeeds fails iff one of its entries fails, with the error of the first failing entry, all earlier entries having passed |
| Polling.FilePoll | index.js:57-72 | the file poller emits only `modify` or `delete` for its own path: `modify` iff mtime increased (registry unchanged); `delete` iff it did not and the link count is 0, and then the path leaves the registry and is unwatched; otherwise nothing |
| Polling.FilePollAgreesWithNative | index.js:58-67 | any event the file poller emits on a registered file is the one the native disambiguator gives a `change` on that path, with the same registry change |
| Polling.OneLevel | index.js:80 | the options of the directory re-walk: the monitor's strategy and exclusion with a depth limit of 1 |
| Polling.DirPoll | index.js:74-88 | a newer ctime emits exactly one `create` for the directory's own path and leaves the registry of `watch(dir, 0, 1)` from the current one, whatever that walk reported; otherwise nothing and no change; the re-walk keeps every handle and adds only the directory itself or direct, existing, non-excluded entries of it |
| Polling.DirPollRegistersReached | index.js:78-83 | when the one-level re-walk passes, every path it reaches (the directory and its direct, existing, non-excluded entries) is registered |
| Gargoyle.Monitor | index.js:148-174 | `monitor` fails iff the walk from the root fails, with its first error; on success the options are the defaulted ones and the registry holds exactly the paths reached from the root at depth 0 |
| Gargoyle.ZeroMaxDepthIsUnbounded | index.js:155 | `maxDepth: 0` gives the same monitor as no `maxDepth` |
| Gargoyle.EventsOf | index.js:36-38 | a decision with an event emits exactly that event on the path; a decision without one emits nothing |
| Gargoyle.FileNotify | index.js:34-40 | a file handle emits at most one event, for its own path, following the decision table: `create` iff unknown, existing and `rename`; `modify` iff known, existing and `change`; `rename` iff known and `rename`; `delete` iff known, gone and `change`, which forgets and closes it; nothing iff unknown and not (existing and `rename`); only `delete` changes the state |
| Gargoyle.DirNotify | index.js:42-55 | a directory handle emits something iff the named entry is unknown, exists and the notification is `rename`; it then emits exactly `create` for the entry, whatever the walk of the entry reported, and the registry is that walk from depth 0; a known, vanished entry on `change` is forgotten and its handle closed without any event, and a silent change of the registry is only that; every other silent decision changes nothing and releases nothing |
| Gargoyle.CreatedEntryWalkedFromDepthZero | index.js:50-52 | after a forwarded `create`, if the entry's walk passes, every path reached from the entry counted from depth 0 is registered |
| Gargoyle.ClosedBy | index.js:24-27 | a decision that closed a handle releases it by `close()` on the path; any other decision releases nothing |
| Gargoyle.Run | index.js:34-88 | notifications are handled in order, each on its own: a run of one notification is exactly its delivery to the handle it targets; no run changes the options, and an empty run changes nothing |
| Gargoyle.RunConcatenates | index.js:34-88 | a run of two sequences is the run of the first followed by the run of the second from the state the first left, with events and releases concatenated in order |
| Gargoyle.Deliver | index.js:34-88 | a notification for a path with no registered handle delivers nothing, and no notification changes the options |
| Gargoyle.StoppedMonitorIsSilent | index.js:176-185 | with an empty registry, any sequence of notifications over any filesystem yields no events, no releases and no change |
| Gargoyle.ReleasedTargetIsSilent | index.js:24-27 | notifications aimed at a path whose handle was released yield nothing |
| Gargoyle.UnlinkedFileDeletedOnce | index.js:10-40 | unlinking a natively watched file, reported as `change` and then any echoes on its handle, emits exactly one `delete`, forgets the file and closes its handle once |
| Gargoyle.Stop | index.js:176-185 | `stop` empties the registry, keeps the options, and releases every registered path exactly once, by `close()` under `fs.watch` and by `fs.unwatchFile` under polling |

## Left out

- The `fs.watch`, `fs.watchFile` and `fs.unwatchFile` bindings and the `EventEmitter`: raw notifications arrive as `Notification` values and emitted events are returned as values.
- `fs.exists`, `fs.stat` and `fs.readdir` as calls: they are lookups in the filesystem value given with each notification.
- The race between a raw notification and its later existence check: each notification is handled against one filesystem snapshot.
- The concurrency ceiling of 30 in `async.forEachLimit` and `process.nextTick`: entries are walked one after another and the first failure stops the fold. In the source, entries already in flight when one fails still finish and register their handles; for a directory of at most 30 entries that is every entry. `DirNotify` and `DirPoll` keep the registry of a failed walk, so the difference shows: under polling, a directory listing a dangling symlink before a new file gets the new file watched by the source but not by the model.
- The polling interval and persistence options (index.js:5-8) and real-time polling: only the comparison of the current and previous stat snapshot is modelled.
- The `(options | callback)` argument handling of `monitor` (index.js:149-152): options are always given, with absent fields as `None`.
- Handles leaked by a failed `monitor`: the partial registry is discarded with the error, as the source drops its context.
- The registry is a plain object in the source, so `!context.files[p]` is false for a key inherited from `Object.prototype` (an entry named `toString` under root `.` is never registered, and a later `delete` decision on it calls `close` on a function and throws). The registry here is a map with no inherited keys, so such entries are registered like any other.
- `fs.watch` throwing synchronously when a handle is attached (ENOSPC, EMFILE, or ENOENT when the path vanished after `stat`): in the source this is an uncaught exception, not an error passed to the callback; `Register` always succeeds.
- A directory notification without a file name, on which `path.join` throws or yields the directory itself: every `Raw` notification carries an entry name.
- Handling one notification, including the re-walk it may start, is atomic with respect to `stop` and to every other notification. In the source an existence check or a re-walk begun before `stop` can finish after it, emit `create` and register handles into the cleared registry that are never released; `StoppedMonitorIsSilent` and `ReleasedTargetIsSilent` hold only under this atomicity.
- Values of `maxDepth` other than integers (`NaN`, strings) and non-string `type` values.
- Gargoyle.Deliver: states only that released handles deliver nothing; what each live handle does is stated on FileNotify, DirNotify, FilePoll and DirPoll.

=== FILE: disambiguator.dfy ===
/**
 `getRealEvent`: turns one raw `fs.watch` notification on a path into a
 semantic event, using whether the registry knows the path and whether the
 path exists when the confirmatory `fs.exists` completes.
 */
module Disambiguator {
  import opened Wrappers
  import opened Fs
  import opened Session

  /** The event (none when `eventName` stays undefined), the registry after, and the handle closed. */
  datatype Decision = Decision(event: Option<Event>, files: Files, closed: Option<Watcher>)

  /**
   The decision table. Each event is characterised by exactly the inputs that
   produce it, and the registry changes only on `Delete`, which removes the
   one path and closes its handle.
   */
  function RealEvent(kind: RawKind, p: Path, files: Files, present: bool): (d: Decision)
    ensures d.event == Some(Create) <==> p !in files && present && kind == RawRename
    ensures d.event == Some(Modify) <==> p in files && present && kind == RawChange
    ensures d.event == Some(Delete) <==> p in files && !present && kind == RawChange
    ensures d.event == Some(Rename) <==> p in files && kind == RawRename
    ensures d.event == None <==> p !in files && !(present && kind == RawRename)
    ensures d.event == Some(Delete) ==> d.files == files - {p} && d.closed == Some(files[p])
    ensures d.event != Some(Delete) ==> d.files == files && d.closed == None
  {
    if p !in files then
      Decision(if present && kind == RawRename then Some(Create) else None, files, None)
    else
      var name :=
        if present then (if kind == RawRename then Rename else Modify)
        else (if kind == RawChange then Delete else Rename);
      if name == Delete then Decision(Some(Delete), files - {p}, Some(files[p]))
      else
        assert name == Rename <==> kind == RawRename;
        Decision(Some(name), files, None)
  }

  /** The events of a run of notifications on one path, and the registry after them. */
  datatype Trace = Trace(events: seq<Option<Event>>, files: Files)

  /**
   Feeds raw notifications on `p` through the disambiguator one after another,
   while the existence of `p` stays as given.
   */
  function Replay(kinds: seq<RawKind>, p: Path, files: Files, present: bool): (t: Trace)
    ensures |t.events| == |kinds|
    ensures t.files == files || t.files == files - {p}
    ensures t.files != files ==> p in files && !present
  {
    if kinds == [] then Trace([], files)
    else
      var d := RealEvent(kinds[0], p, files, present);
      var rest := Replay(kinds[1..], p, d.files, present);
      Trace([d.event] + rest.events, rest.files)
  }

  /** Once a vanished path has left the registry, every further notification on it is dropped. */
  lemma {:induction false} ForgottenPathIsSilent(kinds: seq<RawKind>, p: Path, files: Files)
    requires p !in files
    ensures Replay(kinds, p, files, false).files == files
    ensures forall i :: 0 <= i < |kinds| ==> Replay(kinds, p, files, false).events[i] == None
  {
    if kinds != [] {
      ForgottenPathIsSilent(kinds[1..], p, files);
      var rest := Replay(kinds[1..], p, files, false);
      assert Replay(kinds, p, files, false).events == [None] + rest.events;
    }
  }

  /**
   A registered path that is gone and first reports `'change'` yields exactly
   one `Delete`, leaves the registry, and every echo after it is dropped.
   */
  lemma {:induction false} UnlinkYieldsOneDelete(echoes: seq<RawKind>, p: Path, files: Files)
    requires p in files
    ensures Replay([RawChange] + echoes, p, files, false).files == files - {p}
    ensures Replay([RawChange] + echoes, p, files, false).events[0] == Some(Delete)
    ensures forall i :: 1 <= i <= |echoes| ==> Replay([RawChange] + echoes, p, files, false).events[i] == None
  {
    var kinds := [RawChange] + echoes;
    assert kinds[1..] == echoes;
    ForgottenPathIsSilent(echoes, p, files - {p});
  }

  /** The unlink pattern of the platform, `change` then two `rename`s: one `Delete`, then nothing. */
  lemma UnlinkEchoSuppressed(p: Path, files: Files)
    requires p in files
    ensures Replay([RawChange, RawRename, RawRename], p, files, false) == Trace([Some(Delete), None, None], files - {p})
  {
    UnlinkYieldsOneDelete([RawRename, RawRename], p, files);
    assert [RawChange] + [RawRename, RawRename] == [RawChange, RawRename, RawRename];
  }
}

=== FILE: filesystem.dfy ===
/**
 An abstract, immutable snapshot of the filesystem the watcher observes.
 `fs.stat`, `fs.readdir` and `fs.exists` become lookups in this value.
 */
module Fs {
  import opened Wrappers

  /** One directory entry name, as `fs.readdir` returns it. */
  type Name = string

  /** A path is the sequence of its components; `path.join(dir, name)` appends one. */
  type Path = seq<Name>

  /** The parts of an `fs.Stats` the watcher reads: `getTime()` milliseconds and the link count. */
  datatype Meta = Meta(mtime: int, ctime: int, nlink: nat)

  /**
   What `fs.stat` reports for a path. A directory carries what `fs.readdir`
   would list: `None` when listing it fails.
   */
  datatype Node =
    | File(meta: Meta)
    | Dir(meta: Meta, entries: Option<seq<Name>>)

  /** `fs.stat(p)` succeeds exactly on the keys of the map. */
  type FileSystem = map<Path, Node>

  /** The path of entry `name` inside directory `dir`, as `path.join` builds it. */
  function Child(dir: Path, name: Name): (c: Path)
    ensures dir < c && |c| == |dir| + 1 && c[|dir|] == name
  {
    dir + [name]
  }

  /** Whether `p` exists now, the answer of `fs.exists`. */
  predicate Exists(fs: FileSystem, p: Path) {
    p in fs
  }

  /** The existing paths at or below `p`; the walk of the tree terminates because this shrinks. */
  ghost function Subtree(fs: FileSystem, p: Path): set<Path> {
    set q | q in fs && p <= q
  }

  /** Below an existing path, every child's subtree is strictly smaller. */
  lemma ChildSubtreeSmaller(fs: FileSystem, p: Path, name: Name)
    requires p in fs
    ensures |Subtree(fs, Child(p, name))| < |Subtree(fs, p)|
  {
    var c := Child(p, name);
    assert Subtree(fs, c) <= Subtree(fs, p);
    var smaller, larger := Subtree(fs, c), Subtree(fs, p);
    assert p in larger - smaller;
    assert larger == smaller + (larger - smaller);
    assert |larger - smaller| >= 1;
  }

  /** The same fact for every child at once, for use inside quantifiers. */
  lemma ChildrenSubtreesSmaller(fs: FileSystem, p: Path)
    requires p in fs
    ensures forall name :: |Subtree(fs, Child(p, name))| < |Subtree(fs, p)|
  {
    forall name
      ensures |Subtree(fs, Child(p, name))| < |Subtree(fs, p)|
    {
      ChildSubtreeSmaller(fs, p, name);
    }
  }
}

=== FILE: monitor.dfy ===
/**
 The monitor session: creating it (`exports.monitor`), delivering raw
 notifications to the handle they belong to (`watchFile`, `watchDir` and the
 polling listeners), and tearing it down (`exports.stop`).
 */
module Gargoyle {
  import opened Wrappers
  import opened Fs
  import opened Session
  import opened Disambiguator
  import opened WatchTree
  import opened Polling

  /**
   A notification from the platform to the handle registered at `target`:
   an `fs.watch` callback `(event, filename)` or an `fs.watchFile` listener
   call `(current, previous)`.
   */
  datatype Notification =
    | Raw(target: Path, kind: RawKind, entry: Name)
    | Poll(target: Path, current: Meta, previous: Meta)

  /** A notification together with the filesystem as it is when the notification is handled. */
  datatype Stimulus = Stimulus(fs: FileSystem, note: Notification)

  /**
   `exports.monitor(root, options, callback)`: applies the option defaults and
   walks the tree from the root at depth 0. On success the registry holds
   exactly the reached paths; on failure the first error is reported.
   */
  function Monitor(root: Path, user: UserOptions, fs: FileSystem): (r: Result<Context, FsError>)
    ensures r.Err? <==> Probe(fs, Configure(user), root, 0).Fail?
    ensures r.Err? ==> r.error == Probe(fs, Configure(user), root, 0).error
    ensures r.Ok? ==> r.value.options == Configure(user)
    ensures r.Ok? ==> forall q :: q in r.value.files <==> Reaches(fs, Configure(user), root, 0, q)
  {
    var o := Configure(user);
    var w := Watch(fs, o, root, 0, map[]);
    WatchRegistersReached(fs, o, root, 0, map[]);
    if w.status.Fail? then Err(w.status.error) else Ok(Context(o, w.files))
  }

  /** `maxDepth: 0` is falsy, so it means the same as giving no depth limit at all. */
  lemma ZeroMaxDepthIsUnbounded(root: Path, kind: Option<string>, exclude: Option<Exclude>, fs: FileSystem)
    ensures Monitor(root, UserOptions(kind, Some(0), exclude), fs) == Monitor(root, UserOptions(kind, None, exclude), fs)
  {
    assert Configure(UserOptions(kind, Some(0), exclude)) == Configure(UserOptions(kind, None, exclude));
  }

  /** The events of a one-shot decision, dropping the undefined event name. */
  function EventsOf(event: Option<Event>, p: Path): (es: seq<Emitted>)
    ensures es == [] <==> event.None?
    ensures event.Some? ==> es == [Emitted(event.value, p)]
  {
    if event.Some? then [Emitted(event.value, p)] else []
  }

  /** The handles a decision closed, as releases. */
  function ClosedBy(d: Decision, p: Path): (rs: seq<Release>)
    ensures rs == [] <==> d.closed.None?
    ensures d.closed.Some? ==> rs == [Close(p)]
  {
    if d.closed.Some? then [Close(p)] else []
  }

  /** `watchFile`'s callback: the disambiguated event on the file itself, whichever it is, is emitted. */
  function FileNotify(ctx: Context, fs: FileSystem, p: Path, kind: RawKind): (r: Step)
    ensures r.ctx.options == ctx.options
    ensures |r.events| <= 1
    ensures forall k :: 0 <= k < |r.events| ==> r.events[k].path == p
    ensures r.events == [Emitted(Create, p)] <==> p !in ctx.files && Exists(fs, p) && kind == RawRename
    ensures r.events == [Emitted(Modify, p)] <==> p in ctx.files && Exists(fs, p) && kind == RawChange
    ensures r.events == [Emitted(Rename, p)] <==> p in ctx.files && kind == RawRename
    ensures r.events == [Emitted(Delete, p)] <==> p in ctx.files && !Exists(fs, p) && kind == RawChange
    ensures r.events == [] <==> p !in ctx.files && !(Exists(fs, p) && kind == RawRename)
    ensures r.events == [Emitted(Delete, p)] ==> r.ctx.files == ctx.files - {p} && r.released == [Close(p)]
    ensures r.events != [Emitted(Delete, p)] ==> r.ctx == ctx && r.released == []
  {
    var d := RealEvent(kind, p, ctx.files, Exists(fs, p));
    Step(EventsOf(d.event, p), ctx.(files := d.files), ClosedBy(d, p))
  }

  /**
   `watchDir`'s callback for entry `name`: only a `Create` of the entry is
   forwarded, after the entry has been walked afresh at depth 0 with the
   monitor's limit, and whether or not that walk failed. Other decisions are
   not emitted, but a `Delete` still forgets the entry and closes its handle.
   */
  function DirNotify(ctx: Context, fs: FileSystem, dir: Path, kind: RawKind, name: Name): (r: Step)
    ensures r.ctx.options == ctx.options
    ensures var c := Child(dir, name);
            r.events != [] <==> c !in ctx.files && Exists(fs, c) && kind == RawRename
    ensures var c := Child(dir, name);
            r.events != [] ==> r.events == [Emitted(Create, c)] && r.released == []
                               && r.ctx.files == Watch(fs, ctx.options, c, 0, ctx.files).files
    ensures var c := Child(dir, name);
            r.ctx.files != ctx.files && r.events == [] ==>
              c in ctx.files && !Exists(fs, c) && kind == RawChange
              && r.ctx.files == ctx.files - {c} && r.released == [Close(c)]
    ensures var c := Child(dir, name);
            c in ctx.files && !Exists(fs, c) && kind == RawChange ==>
              r.events == [] && r.ctx.files == ctx.files - {c} && r.released == [Close(c)]
    ensures var c := Child(dir, name);
            r.events == [] && !(c in ctx.files && !Exists(fs, c) && kind == RawChange) ==>
              r.ctx == ctx && r.released == []
  {
    var c := Child(dir, name);
    var d := RealEvent(kind, c, ctx.files, Exists(fs, c));
    if d.event != Some(Create) then
      Step([], ctx.(files := d.files), ClosedBy(d, c))
    else
      var w := Watch(fs, ctx.options, c, 0, d.files);
      Step([Emitted(Create, c)], ctx.(files := w.files), [])
  }

  /** A created entry is walked as a fresh root: when that walk passes, everything it reaches from depth 0 is registered. */
  lemma CreatedEntryWalkedFromDepthZero(ctx: Context, fs: FileSystem, dir: Path, kind: RawKind, name: Name, q: Path)
    requires DirNotify(ctx, fs, dir, kind, name).events != []
    requires Probe(fs, ctx.options, Child(dir, name), 0).Pass?
    requires Reaches(fs, ctx.options, Child(dir, name), 0, q)
    ensures q in DirNotify(ctx, fs, dir, kind, name).ctx.files
  {
    var c := Child(dir, name);
    WatchFromAnyRegistry(fs, ctx.options, c, 0, ctx.files);
    WatchRegistersReached(fs, ctx.options, c, 0, ctx.files);
  }

  /**
   Routes a notification to the handle registered at its target. A target
   with no registered handle has been released (deleted or stopped) and
   delivers nothing; a handle only receives notifications of its own primitive.
   */
  function Deliver(ctx: Context, fs: FileSystem, note: Notification): (r: Step)
    ensures r.ctx.options == ctx.options
    ensures note.target !in ctx.files ==> r == Step([], ctx, [])
  {
    if note.target !in ctx.files then Step([], ctx, [])
    else
      var h := ctx.files[note.target];
      match note
      case Raw(target, kind, entry) =>
        if h.strategy != Native then Step([], ctx, [])
        else if h.scope == FileScope then FileNotify(ctx, fs, target, kind)
        else DirNotify(ctx, fs, target, kind, entry)
      case Poll(target, current, previous) =>
        if h.strategy != Polling then Step([], ctx, [])
        else if h.scope == FileScope then FilePoll(ctx, target, current, previous)
        else DirPoll(ctx, fs, target, current, previous)
  }

  /** Delivers stimuli in order, collecting the emitted events and released handles. */
  function Run(ctx: Context, stimuli: seq<Stimulus>): (r: Step)
    decreases stimuli
    ensures r.ctx.options == ctx.options
    ensures stimuli == [] ==> r == Step([], ctx, [])
    ensures |stimuli| == 1 ==> r == Deliver(ctx, stimuli[0].fs, stimuli[0].note)
  {
    if stimuli == [] then Step([], ctx, [])
    else
      var first := Deliver(ctx, stimuli[0].fs, stimuli[0].note);
      var rest := Run(first.ctx, stimuli[1..]);
      Step(first.events + rest.events, rest.ctx, first.released + rest.released)
  }

  /**
   A run of `first` then `second` is the run of `first` followed by the run of
   `second` from the state it left: events and releases are concatenated in order.
   */
  lemma {:induction false} RunConcatenates(ctx: Context, first: seq<Stimulus>, second: seq<Stimulus>)
    decreases first
    ensures var a := Run(ctx, first);
            var b := Run(a.ctx, second);
            Run(ctx, first + second) == Step(a.events + b.events, b.ctx, a.released + b.released)
  {
    if first == [] {
      assert first + second == second;
      var b := Run(ctx, second);
      assert [] + b.events == b.events && [] + b.released == b.released;
    } else {
      var s := Deliver(ctx, first[0].fs, first[0].note);
      assert (first + second)[0] == first[0];
      assert (first + second)[1..] == first[1..] + second;
      RunConcatenates(s.ctx, first[1..], second);
      var a' := Run(s.ctx, first[1..]);
      var b := Run(a'.ctx, second);
      assert s.events + (a'.events + b.events) == (s.events + a'.events) + b.events;
      assert s.released + (a'.released + b.released) == (s.released + a'.released) + b.released;
    }
  }

  /**
   With an empty registry nothing is delivered any more, whatever happens to
   the filesystem. Each step is `Deliver`'s guard on unregistered targets: a
   released handle is modelled as a path missing from the registry.
   */
  lemma {:induction false} StoppedMonitorIsSilent(ctx: Context, stimuli: seq<Stimulus>)
    requires ctx.files == map[]
    ensures Run(ctx, stimuli) == Step([], ctx, [])
  {
    if stimuli != [] {
      StoppedMonitorIsSilent(ctx, stimuli[1..]);
    }
  }

  /**
   Every notification still aimed at a path whose handle has been released is
   dropped. As above, this follows step by step from `Deliver`'s guard, since
   releasing a handle is modelled as removing its path from the registry.
   */
  lemma {:induction false} ReleasedTargetIsSilent(ctx: Context, p: Path, stimuli: seq<Stimulus>)
    requires p !in ctx.files
    requires forall k :: 0 <= k < |stimuli| ==> stimuli[k].note.target == p
    ensures Run(ctx, stimuli) == Step([], ctx, [])
  {
    if stimuli != [] {
      ReleasedTargetIsSilent(ctx, p, stimuli[1..]);
    }
  }

  /**
   Unlinking a natively watched file: its handle reports `'change'` and then
   any echoes. The monitor emits exactly one `Delete` for it, forgets it,
   closes its handle once, and drops every echo.
   */
  lemma UnlinkedFileDeletedOnce(ctx: Context, fs: FileSystem, p: Path, entry: Name, echoes: seq<Stimulus>)
    requires p in ctx.files && ctx.files[p] == Watcher(Native, FileScope)
    requires !Exists(fs, p)
    requires forall k :: 0 <= k < |echoes| ==> echoes[k].note.target == p
    ensures var r := Run(ctx, [Stimulus(fs, Raw(p, RawChange, entry))] + echoes);
            r.events == [Emitted(Delete, p)] && r.ctx.files == ctx.files - {p} && r.released == [Close(p)]
  {
    var stimuli := [Stimulus(fs, Raw(p, RawChange, entry))] + echoes;
    assert stimuli[1..] == echoes;
    var first := Deliver(ctx, fs, Raw(p, RawChange, entry));
    assert first == Step([Emitted(Delete, p)], ctx.(files := ctx.files - {p}), [Close(p)]);
    ReleasedTargetIsSilent(first.ctx, p, echoes);
  }

  /**
   `exports.stop`: releases every registered handle once, by `close()` or
   `fs.unwatchFile` according to the monitor's type, and empties the registry.
   */
  method Stop(ctx: Context) returns (released: seq<Release>, after: Context)
    ensures after == ctx.(files := map[])
    ensures |released| == |ctx.files|
    ensures forall k :: 0 <= k < |released| ==> released[k] == ReleaseFor(ctx.options.strategy, released[k].path)
    ensures forall k, l :: 0 <= k < l < |released| ==> released[k].path != released[l].path
    ensures forall p :: p in ctx.files <==> exists k :: 0 <= k < |released| && released[k].path == p
  {
    var remaining := ctx.files.Keys;
    released := [];
    ghost var position: map<Path, nat> := map[];
    while remaining != {}
      invariant remaining <= ctx.files.Keys
      invariant position.Keys == ctx.files.Keys - remaining
      invariant |released| + |remaining| == |ctx.files.Keys|
      invariant forall k :: 0 <= k < |released| ==> released[k] == ReleaseFor(ctx.options.strategy, released[k].path)
      invariant forall k :: 0 <= k < |released| ==> released[k].path in position && position[released[k].path] == k
      invariant forall q :: q in position ==> position[q] < |released| && released[position[q]].path == q
      decreases |remaining|
    {
      var p :| p in remaining;
      position := position[p := |released|];
      released := released + [ReleaseFor(ctx.options.strategy, p)];
      remaining := remaining - {p};
    }
    assert forall q :: q in ctx.files ==> q in position && released[position[q]].path == q;
    after := ctx.(files := map[]);
  }
}

=== FILE: polling.dfy ===
/**
 The polling strategy (`type` other than `'watch'`): `fs.watchFile` listeners
 that compare the current stat snapshot with the previous one.
 */
module Polling {
  import opened Fs
  import opened Session
  import opened Disambiguator
  import opened WatchTree

  /**
   `watchFileFile`'s listener: a newer mtime is a `Modify`; otherwise a link
   count of zero is a `Delete` that forgets the path and unwatches it.
   Polling can neither see renames nor creations of the file itself.
   */
  function FilePoll(ctx: Context, p: Path, current: Meta, previous: Meta): (r: Step)
    ensures r.ctx.options == ctx.options
    ensures forall k :: 0 <= k < |r.events| ==> r.events[k].path == p && r.events[k].event in {Modify, Delete}
    ensures r.events == [Emitted(Modify, p)] <==> current.mtime > previous.mtime
    ensures r.events == [Emitted(Delete, p)] <==> current.mtime <= previous.mtime && current.nlink == 0
    ensures r.events == [] <==> current.mtime <= previous.mtime && current.nlink != 0
    ensures r.events == [Emitted(Delete, p)] ==> r.ctx.files == ctx.files - {p} && r.released == [Unwatch(p)]
    ensures r.events != [Emitted(Delete, p)] ==> r.ctx == ctx && r.released == []
  {
    if current.mtime > previous.mtime then Step([Emitted(Modify, p)], ctx, [])
    else if current.nlink == 0 then Step([Emitted(Delete, p)], ctx.(files := ctx.files - {p}), [Unwatch(p)])
    else Step([], ctx, [])
  }

  /**
   Whenever the file poller reports something on a registered file, it is
   what the native disambiguator would make of a `'change'` notification on
   that path, with the same registry change; this assumes, as `fs.watchFile`
   does, that a vanished file reports a zeroed stat whose mtime is not newer.
   */
  lemma FilePollAgreesWithNative(ctx: Context, p: Path, current: Meta, previous: Meta)
    requires p in ctx.files
    requires current.nlink == 0 ==> current.mtime <= previous.mtime
    ensures var r := FilePoll(ctx, p, current, previous);
            var d := RealEvent(RawChange, p, ctx.files, current.nlink > 0);
            r.events != [] ==> d.event.Some? && r.events == [Emitted(d.event.value, p)] && r.ctx.files == d.files
  {
  }

  /** The options `watchFileDir` re-walks a changed directory with: `watch(filePath, context, 0, 1)`. */
  function OneLevel(o: Options): (o1: Options)
    ensures o1.maxDepth == AtMost(1) && o1.strategy == o.strategy && o1.exclude == o.exclude
  {
    o.(maxDepth := AtMost(1))
  }

  /**
   `watchFileDir`'s listener: a newer ctime re-walks the directory one level
   deep, ignoring any error, and emits `Create` for the directory's own path.
   The re-walk can only add the directory itself or its direct entries, and
   never replaces a handle.
   */
  function DirPoll(ctx: Context, fs: FileSystem, dir: Path, current: Meta, previous: Meta): (r: Step)
    ensures r.ctx.options == ctx.options && r.released == []
    ensures r.events == (if current.ctime > previous.ctime then [Emitted(Create, dir)] else [])
    ensures current.ctime <= previous.ctime ==> r.ctx == ctx
    ensures current.ctime > previous.ctime ==> r.ctx.files == Watch(fs, OneLevel(ctx.options), dir, 0, ctx.files).files
    ensures Extends(ctx.files, r.ctx.files)
    ensures forall q :: q in r.ctx.files && q !in ctx.files ==>
              q == dir || (dir < q && |q| == |dir| + 1 && q in fs && !Excluded(ctx.options, q, fs[q]))
  {
    if current.ctime > previous.ctime then
      var o1 := OneLevel(ctx.options);
      var w := Watch(fs, o1, dir, 0, ctx.files);
      WatchRegistersReached(fs, o1, dir, 0, ctx.files);
      assert forall q :: q in w.files && q !in ctx.files ==> Reaches(fs, o1, dir, 0, q);
      forall q | Reaches(fs, o1, dir, 0, q)
        ensures q == dir || (dir < q && |q| == |dir| + 1 && q in fs && !Excluded(ctx.options, q, fs[q]))
      {
        ReachedPathShape(fs, o1, dir, 0, q);
      }
      Step([Emitted(Create, dir)], ctx.(files := w.files), [])
    else
      Step([], ctx, [])
  }

  /**
   The re-walk of a changed directory registers what it reaches: when the
   one-level walk passes, the directory and every direct, existing,
   non-excluded entry of it are registered, which is how a new file comes
   to be watched under polling.
   */
  lemma DirPollRegistersReached(ctx: Context, fs: FileSystem, dir: Path, current: Meta, previous: Meta, q: Path)
    requires current.ctime > previous.ctime
    requires Probe(fs, OneLevel(ctx.options), dir, 0).Pass?
    requires Reaches(fs, OneLevel(ctx.options), dir, 0, q)
    ensures q in DirPoll(ctx, fs, dir, current, previous).ctx.files
  {
    var o1 := OneLevel(ctx.options);
    WatchFromAnyRegistry(fs, o1, dir, 0, ctx.files);
    WatchRegistersReached(fs, o1, dir, 0, ctx.files);
  }
}

=== FILE: session.dfy ===
/**
 The vocabulary shared by every part of the watcher: monitor options and their
 defaults, watch handles, the path registry (`context.files`), raw
 notifications and semantic events.
 */
module Session {
  import opened Wrappers
  import opened Fs

  /** The two raw kinds `fs.watch` reports: `'change'` and `'rename'`. */
  datatype RawKind = RawChange | RawRename

  /** The four semantic events a monitor emits. */
  datatype Event = Create | Modify | Delete | Rename

  /** An emitted event with the path it concerns: `monitor.emit(event, path)`. */
  datatype Emitted = Emitted(event: Event, path: Path)

  /** `type: 'watch'` uses `fs.watch`; any other type polls with `fs.watchFile`. */
  datatype Strategy = Native | Polling

  /** Whether a handle was attached by the file or by the directory variant. */
  datatype Scope = FileScope | DirScope

  /**
   A live watch handle. Its behaviour is fixed by the primitive that created
   it and by whether it watches a file or a directory.
   */
  datatype Watcher = Watcher(strategy: Strategy, scope: Scope)

  /** The path registry: a path is known exactly when it has a live handle. */
  type Files = map<Path, Watcher>

  /** How a handle is released: `close()` for `fs.watch`, `fs.unwatchFile` for polling. */
  datatype Release = Close(path: Path) | Unwatch(path: Path)

  /** The depth limit; `Infinity` in the source is `Unbounded`. */
  datatype Limit = AtMost(n: int) | Unbounded

  /** The exclusion predicate `exclude(path, stat)`. */
  type Exclude = (Path, Node) -> bool

  /** Options after `monitor` has applied its defaults. */
  datatype Options = Options(strategy: Strategy, maxDepth: Limit, exclude: Option<Exclude>)

  /** Options as a caller passes them; an absent field is `None`. */
  datatype UserOptions = UserOptions(kind: Option<string>, maxDepth: Option<int>, exclude: Option<Exclude>)

  /** The monitor's state: its options and its registry. */
  datatype Context = Context(options: Options, files: Files)

  /** What handling one notification produced: events, the new state, handles released. */
  datatype Step = Step(events: seq<Emitted>, ctx: Context, released: seq<Release>)

  /**
   `options.type || 'watch'` and `options.maxDepth || Infinity`: a falsy type
   (absent or empty) becomes `'watch'` and a falsy depth (absent or 0) becomes
   unbounded.
   */
  function Configure(user: UserOptions): (o: Options)
    ensures o.strategy == Native <==> user.kind.None? || user.kind.value == "" || user.kind.value == "watch"
    ensures o.maxDepth.Unbounded? <==> user.maxDepth.None? || user.maxDepth.value == 0
    ensures o.maxDepth.AtMost? ==> o.maxDepth.n == user.maxDepth.value
    ensures o.exclude == user.exclude
  {
    var kind := if user.kind.None? || user.kind.value == "" then "watch" else user.kind.value;
    var depth := if user.maxDepth.None? || user.maxDepth.value == 0 then Unbounded else AtMost(user.maxDepth.value);
    Options(if kind == "watch" then Native else Polling, depth, user.exclude)
  }

  /** The depth is within the limit, so `watch` does not cut the walk off there. */
  predicate Within(depth: int, limit: Limit) {
    limit.Unbounded? || depth <= limit.n
  }

  /** The caller's exclusion predicate is set and rejects the path with its stat. */
  predicate Excluded(o: Options, p: Path, node: Node) {
    o.exclude.Some? && o.exclude.value(p, node)
  }

  /** The handle `watch` attaches to a node under a strategy. */
  function WatcherFor(strategy: Strategy, node: Node): (w: Watcher)
    ensures w.strategy == strategy
    ensures w.scope == DirScope <==> node.Dir?
  {
    Watcher(strategy, if node.Dir? then DirScope else FileScope)
  }

  /** How `stop` releases a handle under a strategy. */
  function ReleaseFor(strategy: Strategy, p: Path): (r: Release)
    ensures r.path == p
    ensures r.Close? <==> strategy == Native
  {
    if strategy == Native then Close(p) else Unwatch(p)
  }

  /** `if (!context.files[p]) context.files[p] = handle`: never replaces a live handle. */
  function Register(files: Files, p: Path, w: Watcher): (r: Files)
    ensures p in r && r.Keys == files.Keys + {p}
    ensures forall q :: q in files ==> r[q] == files[q]
    ensures p !in files ==> r[p] == w
  {
    if p in files then files else files[p := w]
  }

  /** `before` is kept intact inside `after`: no entry dropped, no handle replaced. */
  ghost predicate Extends(before: Files, after: Files) {
    forall q :: q in before ==> q in after && after[q] == before[q]
  }
}

=== FILE: watch_tree.dfy ===
/**
 `watch(filePath, context, depth, maxDepth, callback)`: the recursive attach.
 It skips paths deeper than the limit, stats the path, consults the exclusion
 predicate, registers a handle unless the path already has one, and for a
 directory lists it and attaches every entry one level deeper, failing on the
 first entry that fails. The registry is threaded through and returned even
 on failure, because the source mutates `context.files` in place.
 */
module WatchTree {
  import opened Fs
  import opened Session

  /** `fs.stat` failed (the path is gone) or `fs.readdir` failed. */
  datatype FsError = StatFailed(path: Path) | ReadDirFailed(path: Path)

  /** What the callback of `watch` receives: nothing, or the first error. */
  datatype Status = Pass | Fail(error: FsError)

  /** The status of a walk and the registry it leaves behind. */
  datatype Walk = Walk(status: Status, files: Files)

  /** Every handle a walk adds is the one `watch` attaches to that node under the strategy. */
  ghost predicate FreshEntriesFit(fs: FileSystem, o: Options, before: Files, after: Files) {
    forall q :: q in after && q !in before ==> q in fs && after[q] == WatcherFor(o.strategy, fs[q])
  }

  /**
   Attaches handles to `p` and, for a directory, to everything below it up to
   the depth limit, starting at `depth`; the source function is `watch`.
   */
  function Watch(fs: FileSystem, o: Options, p: Path, depth: nat, files: Files): (w: Walk)
    decreases |Subtree(fs, p)|, 1, 0
    ensures Extends(files, w.files)
    ensures FreshEntriesFit(fs, o, files, w.files)
    ensures !Within(depth, o.maxDepth) ==> w == Walk(Pass, files)
    ensures Within(depth, o.maxDepth) && p !in fs ==> w == Walk(Fail(StatFailed(p)), files)
    ensures Within(depth, o.maxDepth) && p in fs && Excluded(o, p, fs[p]) ==> w == Walk(Pass, files)
    ensures Within(depth, o.maxDepth) && p in fs && !Excluded(o, p, fs[p]) ==> p in w.files
    ensures Within(depth, o.maxDepth) && p in fs && !Excluded(o, p, fs[p]) && fs[p].Dir? && fs[p].entries.None?
            ==> w.status == Fail(ReadDirFailed(p))
    ensures Within(depth, o.maxDepth) && p in fs && !Excluded(o, p, fs[p]) && fs[p].File?
            ==> w == Walk(Pass, Register(files, p, WatcherFor(o.strategy, fs[p])))
  {
    if !Within(depth, o.maxDepth) then Walk(Pass, files)
    else if p !in fs then Walk(Fail(StatFailed(p)), files)
    else if Excluded(o, p, fs[p]) then Walk(Pass, files)
    else
      var node := fs[p];
      var registered := Register(files, p, WatcherFor(o.strategy, node));
      match node
      case File(_) => Walk(Pass, registered)
      case Dir(_, entries) =>
        if entries.None? then Walk(Fail(ReadDirFailed(p)), registered)
        else WatchEach(fs, o, p, entries.value, depth + 1, registered)
  }

  /** Walks the entries of directory `dir` one after another at the given depth, stopping at the first failure. */
  function WatchEach(fs: FileSystem, o: Options, dir: Path, names: seq<Name>, depth: nat, files: Files): (w: Walk)
    requires dir in fs
    decreases |Subtree(fs, dir)|, 0, |names|
    ensures Extends(files, w.files)
    ensures FreshEntriesFit(fs, o, files, w.files)
  {
    if names == [] then Walk(Pass, files)
    else
      ChildSubtreeSmaller(fs, dir, names[0]);
      var first := Watch(fs, o, Child(dir, names[0]), depth, files);
      if first.status.Fail? then first
      else WatchEach(fs, o, dir, names[1..], depth, first.files)
  }

  /** The status a walk of `p` reports; it does not depend on the registry (see `WatchFromAnyRegistry`). */
  function Probe(fs: FileSystem, o: Options, p: Path, depth: nat): Status {
    Watch(fs, o, p, depth, map[]).status
  }

  /** `left + (mid + right)` and `(left + mid) + right` agree: map union is associative. */
  lemma UnionAssociative(left: Files, mid: Files, right: Files)
    ensures (left + mid) + right == left + (mid + right)
  {
  }

  /**
   The registry only decides whether a handle is attached, never where the
   walk goes: a walk from any registry reports what a walk from the empty one
   reports, and leaves the union of the two, the older handles winning.
   */
  lemma {:induction false} WatchFromAnyRegistry(fs: FileSystem, o: Options, p: Path, depth: nat, files: Files)
    decreases |Subtree(fs, p)|, 1, 0
    ensures Watch(fs, o, p, depth, files)
            == Walk(Watch(fs, o, p, depth, map[]).status, Watch(fs, o, p, depth, map[]).files + files)
  {
    if Within(depth, o.maxDepth) && p in fs && !Excluded(o, p, fs[p]) {
      var h := WatcherFor(o.strategy, fs[p]);
      var registered := Register(files, p, h);
      assert registered == map[p := h] + files;
      assert Register(map[], p, h) == map[p := h];
      match fs[p]
      case File(_) =>
      case Dir(_, entries) =>
        if entries.Some? {
          var names := entries.value;
          WatchEachFromAnyRegistry(fs, o, p, names, depth + 1, registered);
          WatchEachFromAnyRegistry(fs, o, p, names, depth + 1, map[p := h]);
          UnionAssociative(WatchEach(fs, o, p, names, depth + 1, map[]).files, map[p := h], files);
        }
    }
  }

  /** `WatchFromAnyRegistry` for the fold over a directory's entries. */
  lemma {:induction false} WatchEachFromAnyRegistry(fs: FileSystem, o: Options, dir: Path, names: seq<Name>, depth: nat, files: Files)
    requires dir in fs
    decreases |Subtree(fs, dir)|, 0, |names|
    ensures WatchEach(fs, o, dir, names, depth, files)
            == Walk(WatchEach(fs, o, dir, names, depth, map[]).status, WatchEach(fs, o, dir, names, depth, map[]).files + files)
  {
    if names != [] {
      var c := Child(dir, names[0]);
      ChildSubtreeSmaller(fs, dir, names[0]);
      WatchFromAnyRegistry(fs, o, c, depth, files);
      var alone := Watch(fs, o, c, depth, map[]);
      assert alone.files + map[] == alone.files;
      if alone.status.Pass? {
        WatchEachFromAnyRegistry(fs, o, dir, names[1..], depth, alone.files + files);
        WatchEachFromAnyRegistry(fs, o, dir, names[1..], depth, alone.files);
        UnionAssociative(WatchEach(fs, o, dir, names[1..], depth, map[]).files, alone.files, files);
      }
    }
  }

  /** Running `watch` a second time over an unchanged tree changes nothing, whatever the first run reported. */
  lemma WatchIdempotent(fs: FileSystem, o: Options, p: Path, depth: nat, files: Files)
    ensures Watch(fs, o, p, depth, Watch(fs, o, p, depth, files).files) == Watch(fs, o, p, depth, files)
  {
    var alone := Watch(fs, o, p, depth, map[]);
    WatchFromAnyRegistry(fs, o, p, depth, files);
    WatchFromAnyRegistry(fs, o, p, depth, alone.files + files);
    UnionAssociative(alone.files, alone.files, files);
    assert alone.files + alone.files == alone.files;
  }

  /**
   `q` is reached by a walk of `p` started at `depth`: every path from `p` down
   to `q` exists, is within the depth limit and is not excluded, and every
   directory strictly above `q` on that path lists the next component.
   */
  ghost predicate Reaches(fs: FileSystem, o: Options, p: Path, depth: nat, q: Path)
    decreases |Subtree(fs, p)|
  {
    if !Within(depth, o.maxDepth) || p !in fs || Excluded(o, p, fs[p]) then false
    else if q == p then true
    else if fs[p].File? || fs[p].entries.None? then false
    else
      var names := fs[p].entries.value;
      ChildrenSubtreesSmaller(fs, p);
      exists i :: 0 <= i < |names| && Reaches(fs, o, Child(p, names[i]), depth + 1, q)
  }

  /** What a reached path looks like: below `p`, present, not excluded, and within the limit. */
  lemma {:induction false} ReachedPathShape(fs: FileSystem, o: Options, p: Path, depth: nat, q: Path)
    requires Reaches(fs, o, p, depth, q)
    decreases |Subtree(fs, p)|
    ensures p <= q && q in fs && !Excluded(o, q, fs[q])
    ensures Within(depth + |q| - |p|, o.maxDepth)
  {
    if q != p {
      var names := fs[p].entries.value;
      ChildrenSubtreesSmaller(fs, p);
      var i :| 0 <= i < |names| && Reaches(fs, o, Child(p, names[i]), depth + 1, q);
      ReachedPathShape(fs, o, Child(p, names[i]), depth + 1, q);
    }
  }

  /** A walk registers nothing but already registered or reached paths. */
  lemma {:induction false} WatchRegistersOnlyReached(fs: FileSystem, o: Options, p: Path, depth: nat, files: Files)
    decreases |Subtree(fs, p)|, 1, 0
    ensures forall q :: q in Watch(fs, o, p, depth, files).files ==> q in files || Reaches(fs, o, p, depth, q)
  {
    if Within(depth, o.maxDepth) && p in fs && !Excluded(o, p, fs[p]) && fs[p].Dir? && fs[p].entries.Some? {
      var names := fs[p].entries.value;
      var registered := Register(files, p, WatcherFor(o.strategy, fs[p]));
      var w := Watch(fs, o, p, depth, files);
      assert w == WatchEach(fs, o, p, names, depth + 1, registered);
      WatchEachRegistersOnlyReached(fs, o, p, names, depth + 1, registered);
      ChildrenSubtreesSmaller(fs, p);
      forall q | q in w.files && q !in registered
        ensures Reaches(fs, o, p, depth, q)
      {
        var i :| 0 <= i < |names| && Reaches(fs, o, Child(p, names[i]), depth + 1, q);
      }
    }
  }

  /** `WatchRegistersOnlyReached` for the fold over a directory's entries. */
  lemma {:induction false} WatchEachRegistersOnlyReached(fs: FileSystem, o: Options, dir: Path, names: seq<Name>, depth: nat, files: Files)
    requires dir in fs
    decreases |Subtree(fs, dir)|, 0, |names|
    ensures forall q :: q in WatchEach(fs, o, dir, names, depth, files).files ==>
              q in files || exists i :: 0 <= i < |names| && Reaches(fs, o, Child(dir, names[i]), depth, q)
  {
    if names != [] {
      var c := Child(dir, names[0]);
      ChildSubtreeSmaller(fs, dir, names[0]);
      var first := Watch(fs, o, c, depth, files);
      var w := WatchEach(fs, o, dir, names, depth, files);
      WatchRegistersOnlyReached(fs, o, c, depth, files);
      if first.status.Pass? {
        var rest := names[1..];
        assert w == WatchEach(fs, o, dir, rest, depth, first.files);
        WatchEachRegistersOnlyReached(fs, o, dir, rest, depth, first.files);
      }
      forall q | q in w.files && q !in files
        ensures exists i :: 0 <= i < |names| && Reaches(fs, o, Child(dir, names[i]), depth, q)
      {
        if q in first.files {
          assert Reaches(fs, o, Child(dir, names[0]), depth, q);
        } else {
          var rest := names[1..];
          var j :| 0 <= j < |rest| && Reaches(fs, o, Child(dir, rest[j]), depth, q);
          assert rest[j] == names[j + 1];
        }
      }
    }
  }

  /** A walk that passes registers every reached path. */
  lemma {:induction false} WatchRegistersAllReached(fs: FileSystem, o: Options, p: Path, depth: nat, files: Files)
    decreases |Subtree(fs, p)|, 1, 0
    ensures Watch(fs, o, p, depth, files).status.Pass? ==>
              forall q :: Reaches(fs, o, p, depth, q) ==> q in Watch(fs, o, p, depth, files).files
  {
    if Within(depth, o.maxDepth) && p in fs && !Excluded(o, p, fs[p]) && fs[p].Dir? && fs[p].entries.Some? {
      var names := fs[p].entries.value;
      var registered := Register(files, p, WatcherFor(o.strategy, fs[p]));
      var w := Watch(fs, o, p, depth, files);
      assert w == WatchEach(fs, o, p, names, depth + 1, registered);
      WatchEachRegistersAllReached(fs, o, p, names, depth + 1, registered);
      ChildrenSubtreesSmaller(fs, p);
      if w.status.Pass? {
        forall q | Reaches(fs, o, p, depth, q) && q != p
          ensures q in w.files
        {
          var i :| 0 <= i < |names| && Reaches(fs, o, Child(p, names[i]), depth + 1, q);
        }
      }
    }
  }

  /** `WatchRegistersAllReached` for the fold over a directory's entries. */
  lemma {:induction false} WatchEachRegistersAllReached(fs: FileSystem, o: Options, dir: Path, names: seq<Name>, depth: nat, files: Files)
    requires dir in fs
    decreases |Subtree(fs, dir)|, 0, |names|
    ensures WatchEach(fs, o, dir, names, depth, files).status.Pass? ==>
              forall i, q :: 0 <= i < |names| && Reaches(fs, o, Child(dir, names[i]), depth, q) ==>
                q in WatchEach(fs, o, dir, names, depth, files).files
  {
    if names != [] {
      var c := Child(dir, names[0]);
      ChildSubtreeSmaller(fs, dir, names[0]);
      var first := Watch(fs, o, c, depth, files);
      var w := WatchEach(fs, o, dir, names, depth, files);
      if first.status.Pass? && w.status.Pass? {
        var rest := names[1..];
        assert w == WatchEach(fs, o, dir, rest, depth, first.files);
        WatchRegistersAllReached(fs, o, c, depth, files);
        WatchEachRegistersAllReached(fs, o, dir, rest, depth, first.files);
        forall i, q | 0 <= i < |names| && Reaches(fs, o, Child(dir, names[i]), depth, q)
          ensures q in w.files
        {
          if i > 0 {
            assert names[i] == rest[i - 1];
          }
        }
      }
    }
  }

  /**
   A walk registers only reached paths, and a walk that passes registers every
   reached path.
   */
  lemma WatchRegistersReached(fs: FileSystem, o: Options, p: Path, depth: nat, files: Files)
    ensures forall q :: q in Watch(fs, o, p, depth, files).files ==> q in files || Reaches(fs, o, p, depth, q)
    ensures Watch(fs, o, p, depth, files).status.Pass? ==>
              forall q :: Reaches(fs, o, p, depth, q) ==> q in Watch(fs, o, p, depth, files).files
  {
    WatchRegistersOnlyReached(fs, o, p, depth, files);
    WatchRegistersAllReached(fs, o, p, depth, files);
  }

  /**
   The fold over a directory's entries passes exactly when the walk of every
   entry passes on its own, and otherwise reports the error of the first
   entry that fails.
   */
  lemma {:induction false} WatchEachFailsOnFirstFailure(fs: FileSystem, o: Options, dir: Path, names: seq<Name>, depth: nat, files: Files)
    requires dir in fs
    ensures WatchEach(fs, o, dir, names, depth, files).status.Pass? <==>
              forall i :: 0 <= i < |names| ==> Probe(fs, o, Child(dir, names[i]), depth).Pass?
    ensures WatchEach(fs, o, dir, names, depth, files).status.Fail? ==>
              exists i :: 0 <= i < |names|
                && WatchEach(fs, o, dir, names, depth, files).status == Probe(fs, o, Child(dir, names[i]), depth)
                && forall j :: 0 <= j < i ==> Probe(fs, o, Child(dir, names[j]), depth).Pass?
  {
    if names != [] {
      var c := Child(dir, names[0]);
      WatchFromAnyRegistry(fs, o, c, depth, files);
      var first := Watch(fs, o, c, depth, files);
      var rest := names[1..];
      if first.status.Pass? {
        WatchEachFailsOnFirstFailure(fs, o, dir, rest, depth, first.files);
        var w := WatchEach(fs, o, dir, rest, depth, first.files);
        assert forall i :: 1 <= i < |names| ==> names[i] == rest[i - 1];
        if w.status.Fail? {
          var k :| 0 <= k < |rest| && w.status == Probe(fs, o, Child(dir, rest[k]), depth)
                   && forall j :: 0 <= j < k ==> Probe(fs, o, Child(dir, rest[j]), depth).Pass?;
          assert forall j :: 0 <= j < k + 1 ==> Probe(fs, o, Child(dir, names[j]), depth).Pass? by {
            forall j | 0 <= j < k + 1
              ensures Probe(fs, o, Child(dir, names[j]), depth).Pass?
            {
              if j > 0 {
                assert names[j] == rest[j - 1];
              }
            }
          }
        } else {
          forall i | 0 <= i < |names|
            ensures Probe(fs, o, Child(dir, names[i]), depth).Pass?
          {
            if i > 0 {
              assert names[i] == rest[i - 1];
            }
          }
        }
      }
    }
  }

  /**
   A reached directory whose listing succeeds makes `watch` fail exactly when
   one of its entries fails, with the first failing entry's error; stat and
   listing failures of the directory itself are stated on `Watch`.
   */
  lemma WatchDirectoryPropagatesFailure(fs: FileSystem, o: Options, p: Path, depth: nat, files: Files)
    requires Within(depth, o.maxDepth) && p in fs && !Excluded(o, p, fs[p])
    requires fs[p].Dir? && fs[p].entries.Some?
    ensures Watch(fs, o, p, depth, files).status.Pass? <==>
              forall i :: 0 <= i < |fs[p].entries.value| ==> Probe(fs, o, Child(p, fs[p].entries.value[i]), depth + 1).Pass?
    ensures Watch(fs, o, p, depth, files).status.Fail? ==>
              exists i :: 0 <= i < |fs[p].entries.value|
                && Watch(fs, o, p, depth, files).status == Probe(fs, o, Child(p, fs[p].entries.value[i]), depth + 1)
                && forall j :: 0 <= j < i ==> Probe(fs, o, Child(p, fs[p].entries.value[j]), depth + 1).Pass?
  {
    var registered := Register(files, p, WatcherFor(o.strategy, fs[p]));
    WatchEachFailsOnFirstFailure(fs, o, p, fs[p].entries.value, depth + 1, registered);
  }
}

=== FILE: wrappers.dfy ===
/** Option and Result, used for values that may be absent and for calls that may fail. */
module Wrappers {

  /** A value that may be absent. */
  datatype Option<+T> = None | Some(value: T)

  /** The outcome of a call that either yields a value or fails with an error. */
  datatype Result<+T, +E> = Ok(value: T) | Err(error: E)
}
